=== FILE: README.md ===
# LittleJS draw layer, modelled in Dafny

This project models the drawing system of the LittleJS engine, as shipped with a
small Breakout game (`static/engine/engineDraw.js`). The engine is a Canvas2D and
WebGL hybrid. The model covers the pure decision and geometry logic of that file:

- the world/screen coordinate transforms;
- the choice between the WebGL batch renderer and the Canvas2D fallback;
- the tile-sheet arithmetic that finds a tile's UV rectangle or source rectangle;
- the derived primitives: `drawRect`, `drawTileScreenSpace`, `drawRectScreenSpace`,
  `drawLine`, `drawCanvas2D`, `drawText` and `setBlendMode`.

The engine globals the draw layer reads become one immutable record,
`Render.Context`. It holds the camera position and scale, the canvas size,
`glEnable`, whether the tile image has loaded, the tile-sheet size, both bleed
insets and the default tile size. Each primitive is a pure function. It returns
the backend commands it would issue (`Commands.Command`), in order, instead of
touching a canvas.

A small interpreter (`Commands.Run`) gives those commands meaning on each backend:

- a Canvas2D context has a drawing state, a save/restore stack and a log of paint calls;
- the WebGL renderer has a blend mode and the quads it has been handed.

Lemmas about the interpreter state what each primitive does to the backends. They
also state what each primitive leaves alone.

Modules, leaves first:

- `Geometry`: real-valued `Vec2`, and `Trunc`, the `|0` conversion of a number to an integer.
- `Render`: colours, pixel sizes, the context record and the backend test `glEnable && useWebGL`.
- `Transform`: `WorldToScreen` and `ScreenToWorld`.
- `TileSheet`: column count, tile cell, WebGL UVs and Canvas2D source rectangle.
- `Commands`: the command datatypes and the backend interpreter.
- `Draw`: the draw primitives, each modelled as written.
- `Corrections`: intended versions of the two call sites that misbehave (see Findings).

## Model

| member | source | states |
|---|---|---|
| Geometry.Trunc | static/engine/engineDraw.js:199 | the bitwise-or-with-zero conversion drops the fraction toward zero: the result is within one of `x`, below it for positive and above it for negative numbers |
| Geometry.TruncOfInteger | static/engine/engineDraw.js:199 | the bitwise-or-with-zero conversion leaves an integer unchanged |
| Geometry.TruncOfQuotient | static/engine/engineDraw.js:94 | for a non-negative dividend and positive divisor, `a / b` or-ed with zero is the integer quotient |
| Render.BackendSelection | static/engine/engineDraw.js:80-84 | leaving `useWebGL` out selects WebGL exactly when `glEnable` holds; an explicit falsy value never selects it |
| Transform.WorldToScreen | static/engine/engineDraw.js:66-67 | the camera position maps to the canvas centre, shifted half a pixel up and left |
| Transform.ScreenToWorld | static/engine/engineDraw.js:59-60 | for a non-zero camera scale, `worldToScreen` of its result is the original screen point |
| Transform.WorldScreenWorld | static/engine/engineDraw.js:59-67 | the other round trip: `screenToWorld(worldToScreen(w)) == w` for a non-zero scale |
| Transform.ScreenOffset | static/engine/engineDraw.js:66-67 | differences of screen points are world differences times (s, -s); the half-pixel offsets cancel |
| Transform.AxesOrientation | static/engine/engineDraw.js:66-67 | with a positive scale, screen x keeps world x order and screen y reverses world y order (Y up to Y down) |
| TileSheet.Columns | static/engine/engineDraw.js:94 | the column count is the largest n with n tile widths fitting in the sheet width (zero if the tile is wider) |
| TileSheet.TileCell | static/engine/engineDraw.js:97 | for at least one column: column in [0, cols) and `index == row*cols + column`; with none, the column is NaN and the row 0 |
| TileSheet.CellUnique | static/engine/engineDraw.js:97 | row-major numbering is a bijection: `index == r*cols + c` with `0 <= c < cols` holds iff (c, r) is the tile's cell |
| TileSheet.TileUv | static/engine/engineDraw.js:94-101 | `u1 - u0 = uvSizeX - 2*bleed.x` and `v1 - v0 = uvSizeY - 2*bleed.y`; the u coordinates are NaN exactly when no column fits |
| TileSheet.UvColumnInUnitInterval | static/engine/engineDraw.js:94-101 | with `0 <= bleed.x <= uvSizeX/2`, every tile's u coordinates lie in [0, 1] |
| TileSheet.UvRowInUnitIntervalIff | static/engine/engineDraw.js:96-101 | the tile's vertical UV cell ends inside the sheet iff `index < cols*rows`, which the code never checks |
| TileSheet.UvInUnitSquare | static/engine/engineDraw.js:94-101 | an index on the sheet with insets of at most half a tile gets UVs inside the unit square |
| TileSheet.OffSheetIndexLeavesUnitSquare | static/engine/engineDraw.js:97-101 | tile 4 of a sheet of four 8x8 tiles gets `v1 > 1` |
| TileSheet.TileSource | static/engine/engineDraw.js:119-123 | the Canvas2D source rectangle is a tile minus twice `tileFixBleedScale` in each direction; `sX` is NaN exactly when no column fits |
| TileSheet.SourceInsideCell | static/engine/engineDraw.js:119-123 | with an inset strictly between 0 and half a tile, the source rectangle lies strictly inside the tile's own pixel cell |
| TileSheet.BackendsAgreeOnCell | static/engine/engineDraw.js:94-123 | both backends pick the same cell: without the insets, the UV corner is the source-pixel corner divided by the sheet size |
| Draw.DrawCanvas2D | static/engine/engineDraw.js:193-204 | save first and restore last; then a translate to the screen position truncated toward zero, `rotate(angle)` and a scale by the size in pixels with x negated iff mirrored; the callback's calls sit between the transform and the restore |
| Draw.Canvas2DRestores | static/engine/engineDraw.js:196-203 | for any callback that does not itself save or restore, transforming ones included, the drawing state and save stack end as they began, and the marks left are those the callback makes under the world-to-screen transform |
| Draw.Canvas2DBalanced | static/engine/engineDraw.js:196-203 | for a callback that only styles and paints: state and stack restored, and the marks added are exactly the callback's paint calls, in order, each under the world-to-screen transform |
| Draw.TileBody | static/engine/engineDraw.js:108-127 | the Canvas2D callback never saves, restores or transforms and paints exactly once: `fillRect(-.5,-.5,1,1)` for a negative index, else `drawImage` of the tile's source rectangle (`TileSource`) into `(-.5,-.5,1,1)` |
| Draw.TileBodyRun | static/engine/engineDraw.js:110-125 | the callback sets `fillStyle` to the colour for a negative index, else only `globalAlpha` to the colour's alpha (which the canvas ignores outside [0, 1]), and makes its one paint under that state |
| Draw.DrawTile | static/engine/engineDraw.js:80-129 | one WebGL quad iff `glEnable && useWebGL`; WebGL is untextured iff the index is negative or the image is not loaded: zero UVs, a zero multiplying colour, the caller's colour passed as the additive colour, the caller's additive colour dropped, mirror ignored; textured quads carry the tile UVs and the width negated iff mirrored |
| Draw.DrawTileEffect | static/engine/engineDraw.js:84-128 | only the selected backend changes: WebGL gains exactly one quad; otherwise the main canvas gains exactly one paint call, made under the world-to-screen transform with the fill colour (negative index) or the colour's alpha (tile image, kept only when it lies in [0, 1]) set, and its state and stack are restored |
| Draw.DrawTileMirror | static/engine/engineDraw.js:84-108 | mirroring keeps the UVs and negates the width on textured WebGL, changes nothing on untextured WebGL, and negates only the Canvas2D x scale |
| Draw.Canvas2DIgnoresImageLoad | static/engine/engineDraw.js:105-127 | the Canvas2D path issues the same commands whether or not the tile image has loaded |
| Draw.UntexturedNeverSamples | static/engine/engineDraw.js:86-114 | a negative index never draws from a tile cell on either backend, loaded or not: no `drawImage` on Canvas2D; on WebGL zero UVs under a zero multiplying colour, with the caller's colour as the additive colour |
| Draw.DrawRect | static/engine/engineDraw.js:138-141 | always the untextured branch: on WebGL a zero-UV quad with zero multiplying colour and the colour as additive colour, or a unit-square fill with the colour on Canvas2D, never mirrored |
| Draw.DrawTileScreenSpace | static/engine/engineDraw.js:154-157 | on WebGL the quad's world position maps back to the given screen position |
| Draw.ScreenSpaceRoundTrip | static/engine/engineDraw.js:154-157 | on Canvas2D the translation is the given screen position, snapped, and the scale is the given size with x negated when mirrored; on WebGL the quad's centre maps back to the given position and its size times the camera scale is the given size, with x negated when mirrored and the tile is textured |
| Draw.DrawRectScreenSpace | static/engine/engineDraw.js:166-169 | every call ends in a ReferenceError for a name other than the defined `drawTileScreenSpace`, so nothing is drawn; the error's message is not specified |
| Draw.LineRect | static/engine/engineDraw.js:180-182 | the line's rectangle is centred on the midpoint `(A+B)/2` and is `thickness` wide; for a genuine host length its height squared is the squared distance from A to B |
| Draw.DrawLine | static/engine/engineDraw.js:178-183 | a line is always the Canvas2D unit-square fill of its rectangle, because `drawRect`'s `useWebGL` receives `0` |
| Draw.LineIgnoresBackendChoice | static/engine/engineDraw.js:182 | neither the caller's `useWebGL` nor `glEnable` changes the commands of a line; all go to the main canvas |
| Draw.DrawText | static/engine/engineDraw.js:215-229 | all returned calls go to the overlay canvas and only style or paint; they paint a stroke iff the line width is non-zero, then exactly one fill, both at `worldToScreen(pos)` |
| Draw.TextOps | static/engine/engineDraw.js:217-228 | the calls only style and paint; the paints are the optional stroke followed by the fill |
| Draw.TextStroke | static/engine/engineDraw.js:221-226 | the outline paints once for a non-zero line width and not at all otherwise |
| Draw.DrawTextEffect | static/engine/engineDraw.js:215-229 | only the overlay changes, and its font, alignment, baseline and fill (and, when outlining, the stroke style, plus the pixel line width when it is positive) remain set afterwards; the fill is painted last, under that state |
| Draw.SetBlendMode | static/engine/engineDraw.js:235-241 | one command, sent to WebGL iff `glEnable && useWebGL` |
| Draw.BlendModeChangesOnlySelected | static/engine/engineDraw.js:235-241 | only the selected backend's blend state changes: the WebGL blend flag, or the main canvas's composite operation (`lighter` iff additive, else `source-over`) |
| Corrections.DrawLineIntended | static/engine/engineDraw.js:178-183 | with the argument in place, a line is one WebGL quad iff `glEnable && useWebGL`, centred on the midpoint and `thickness` wide |
| Corrections.LineBackendDiffers | static/engine/engineDraw.js:182 | when WebGL is enabled and `useWebGL` is left out, the line as written goes to Canvas2D but the intended one is a WebGL quad |
| Corrections.DrawRectScreenSpaceIntended | static/engine/engineDraw.js:166-169 | calling the intended function draws an untextured rectangle at the given screen position and size on either backend (on WebGL, the colour in the additive slot over a zero multiplying colour) |
| Corrections.RectScreenSpaceDiffers | static/engine/engineDraw.js:168 | for every input the function as written throws and the intended one draws |

## Left out

- Fullscreen helpers (`isFullscreen`, `toggleFullscreen`, lines 249-269): thin wrappers over browser DOM APIs.
- `showWatermark && ++drawCount`: a diagnostic counter with no effect on what is drawn.
- What the backend calls do: `glDraw`, `glSetBlendMode`, `drawImage`, `fillText`, `strokeText` and the rest are recorded as commands.
  The interpreter gives them a state effect only.
  Pixels, the WebGL batch buffer and flushing are not modelled; the WebGL backend is not part of this model.
- `Color.rgba()` and `Color.rgbaInt()` are not part of this model. Commands carry the colour itself.
- `drawText`'s font string `size*cameraScale + 'px ' + font` is recorded as the pair (pixel size, family), without number-to-string formatting.
- Draw.DrawTextEffect: a canvas also ignores a font string it cannot parse and an unknown `textAlign` or `textBaseline`; the model applies those assignments unconditionally, so it does not promise the font, alignment or baseline survive such values.
- Draw.TileBodyRun: a canvas also ignores a non-finite `globalAlpha` or `lineWidth`; infinities and NaN are not modelled, so only the range guards are.
- Floating point: all numbers are exact reals. NaN is modelled only where the tile arithmetic divides by a zero column count. Infinities are not modelled.
- Geometry.Trunc: does not model the 32-bit wrap-around of `|0` for values of 2^31 or more in magnitude.
- Tile and sheet sizes are positive whole pixel counts (type `Pixels`). Zero, negative or fractional tile sizes are left out. The same goes for a tile index that is fractional or beyond 32 bits.
- Transform.ScreenToWorld: requires a non-zero camera scale, because the source's `1/cameraScale` is then infinite.
- Draw.DrawTileScreenSpace: requires a non-zero camera scale, for the same reason.
- Corrections.DrawRectScreenSpaceIntended: requires a non-zero camera scale, for the same reason.
- Draw.LineRect: the height property assumes the host's `Vector2.length()` returns a true Euclidean length.
  `Vector2.length()` and `Vector2.angle()` are not part of this model. They come in as the `VectorMath` record.
- Optional arguments: only `useWebGL` keeps its "left out" form (`BackendHint.Default`, which then means `glEnable`).
  Callers pass every other argument explicitly; `Render.White` and `Render.Clear` are the documented default colours.
- `glDraw` and the WebGL shader are not part of this model. A quad records the two packed colours `glDraw` receives, as `GlDraw.color` (multiplies the texel) and `GlDraw.additive` (added after). The untextured call passes `0` as the first and the caller's colour as the second. A packed `0` is `Render.Clear`. What the shader then samples at UV (0,0) is outside the model.
- `drawRect` passes the number `0` as `drawTile`'s additive colour. Only the textured branch reads that argument, and `drawRect` never reaches it, so the model passes `Render.Clear`.
- If the tile image has not loaded, the engine's `tileImageSize` may not be set yet. The model reads the sheet size from the context whatever the load state.

## Findings

| source | as written | input that shows it | evidently intended | confidence | as-written member | corrected member |
|---|---|---|---|---|---|---|
| static/engine/engineDraw.js:182 | `drawRect(pos, size, color, angle, 0, 0, useWebGL)` puts `0` in `drawRect`'s fifth parameter, `useWebGL` | `glEnable` true and `useWebGL` left out: the line is drawn with Canvas2D | `drawRect(pos, size, color, angle, useWebGL)`, so a line follows the backend choice like every other primitive | high, not executed | Draw.DrawLine | Corrections.DrawLineIntended |
| static/engine/engineDraw.js:168 | calls `drawTileSrceenSpace`, which is defined nowhere | any call of `drawRectScreenSpace` throws a ReferenceError | call `drawTileScreenSpace`, drawing an untextured rectangle in screen space | high, not executed | Draw.DrawRectScreenSpace | Corrections.DrawRectScreenSpaceIntended |

=== FILE: commands.dfy ===
/** The abstract commands the draw layer issues to its two backends, and a
    small interpreter giving each command its effect on backend state: a
    Canvas2D context keeps a drawing state and a save/restore stack, the
    WebGL backend keeps a blend mode and the quads it has been given. */
module Commands {
  import opened Geometry
  import opened Render
  import opened TileSheet

  /** `globalCompositeOperation` values the draw layer uses. */
  datatype CompositeOp = SourceOver | Lighter

  /** Calls on a `CanvasRenderingContext2D`. */
  datatype CanvasOp =
    | Save
    | Restore
      // transform
    | Translate(tx: int, ty: int)
    | Rotate(angle: real)
    | ScaleBy(sx: real, sy: real)
      // drawing-state properties
    | SetFillStyle(fill: Color)
    | SetStrokeStyle(stroke: Color)
    | SetGlobalAlpha(alpha: real)
    | SetComposite(composite: CompositeOp)
    | SetFont(px: real, family: string)
    | SetTextAlign(align: string)
    | SetTextBaseline(baseline: string)
    | SetLineWidth(width: real)
      // painting
    | FillRect(x: real, y: real, w: real, h: real)
    | DrawImage(src: SourceRect, dx: real, dy: real, dw: real, dh: real)
    | StrokeText(text: string, x: real, y: real)
    | FillText(text: string, x: real, y: real)

  predicate IsTransform(op: CanvasOp)
  {
    op.Translate? || op.Rotate? || op.ScaleBy?
  }

  predicate IsPaint(op: CanvasOp)
  {
    op.FillRect? || op.DrawImage? || op.StrokeText? || op.FillText?
  }

  /** A draw callback's body: it sets style properties and paints, but never
      saves, restores or transforms. */
  predicate StyleAndPaintOnly(ops: seq<CanvasOp>)
  {
    forall i :: 0 <= i < |ops| ==> !ops[i].Save? && !ops[i].Restore? && !IsTransform(ops[i])
  }

  /** The paint calls of `ops`, in order. */
  function Paints(ops: seq<CanvasOp>): seq<CanvasOp>
  {
    if |ops| == 0 then []
    else (if IsPaint(ops[0]) then [ops[0]] else []) + Paints(ops[1..])
  }

  lemma {:induction false} PaintsAppend(x: seq<CanvasOp>, y: seq<CanvasOp>)
    ensures Paints(x + y) == Paints(x) + Paints(y)
    decreases |x|
  {
    if |x| == 0 {
      assert x + y == y;
    } else {
      assert (x + y)[0] == x[0];
      assert (x + y)[1..] == x[1..] + y;
      PaintsAppend(x[1..], y);
      var head := if IsPaint(x[0]) then [x[0]] else [];
      assert Paints(x + y) == head + (Paints(x[1..]) + Paints(y));
      assert Paints(x) == head + Paints(x[1..]);
    }
  }

  lemma {:induction false} NoPaints(ops: seq<CanvasOp>)
    requires forall i :: 0 <= i < |ops| ==> !IsPaint(ops[i])
    ensures Paints(ops) == []
    decreases |ops|
  {
    if |ops| > 0 {
      assert forall i :: 0 <= i < |ops[1..]| ==> ops[1..][i] == ops[i + 1];
      NoPaints(ops[1..]);
    }
  }

  lemma PaintsSingle(op: CanvasOp)
    ensures Paints([op]) == if IsPaint(op) then [op] else []
  {
    assert [op][1..] == [];
  }

  lemma StyleAndPaintOnlyAppend(x: seq<CanvasOp>, y: seq<CanvasOp>)
    requires StyleAndPaintOnly(x) && StyleAndPaintOnly(y)
    ensures StyleAndPaintOnly(x + y)
  {
    forall i | 0 <= i < |x + y|
      ensures !(x + y)[i].Save? && !(x + y)[i].Restore? && !IsTransform((x + y)[i])
    {
      if i < |x| { assert (x + y)[i] == x[i]; } else { assert (x + y)[i] == y[i - |x|]; }
    }
  }

  /** The two canvases the draw layer paints on. */
  datatype Surface = MainCanvas | OverlayCanvas

  /** Calls on the WebGL batch renderer.  A quad carries the two colours
      `glDraw` takes last: `color`, which multiplies the sampled texel, and
      `additive`, which is added to the product. */
  datatype GlOp =
    | GlDraw(pos: Vec2, size: Vec2, angle: real, uv: UvRect, color: Color, additive: Color)
    | GlSetBlendMode(additiveBlend: bool)

  datatype Command = Gl(gl: GlOp) | Ctx2D(surface: Surface, op: CanvasOp)

  /** `ops` issued on one canvas. */
  function On(surface: Surface, ops: seq<CanvasOp>): (cmds: seq<Command>)
    ensures |cmds| == |ops|
    ensures forall i :: 0 <= i < |ops| ==> cmds[i] == Ctx2D(surface, ops[i])
  {
    if |ops| == 0 then [] else [Ctx2D(surface, ops[0])] + On(surface, ops[1..])
  }

  /** The Canvas2D calls of a command list that issues nothing else. */
  function CanvasCalls(cmds: seq<Command>): (ops: seq<CanvasOp>)
    requires forall c | c in cmds :: c.Ctx2D?
    ensures |ops| == |cmds|
    ensures forall i :: 0 <= i < |cmds| ==> ops[i] == cmds[i].op
  {
    seq(|cmds|, i requires 0 <= i < |cmds| => cmds[i].op)
  }

  /** Issuing calls on a canvas and reading them back gives the calls. */
  lemma CanvasCallsOn(surface: Surface, ops: seq<CanvasOp>)
    ensures forall c | c in On(surface, ops) :: c.Ctx2D? && c.surface == surface
    ensures CanvasCalls(On(surface, ops)) == ops
  {
    var cmds := On(surface, ops);
    forall c | c in cmds ensures c.Ctx2D? && c.surface == surface {
      var i :| 0 <= i < |cmds| && cmds[i] == c;
    }
    assert forall i :: 0 <= i < |ops| ==> CanvasCalls(cmds)[i] == ops[i];
  }

  /** The part of a Canvas2D context that `save` and `restore` cover. */
  datatype DrawingState = DrawingState(
    transform: seq<CanvasOp>,   // transform calls applied, oldest first
    fill: Color,
    stroke: Color,
    alpha: real,
    composite: CompositeOp,
    font: (real, string),
    align: string,
    baseline: string,
    lineWidth: real)

  /** One paint call and the drawing state it was made under. */
  datatype Mark = Mark(op: CanvasOp, under: DrawingState)

  datatype CanvasState = CanvasState(state: DrawingState, stack: seq<DrawingState>, painted: seq<Mark>)

  function MarkOps(marks: seq<Mark>): (ops: seq<CanvasOp>)
    ensures |ops| == |marks|
    ensures forall i :: 0 <= i < |marks| ==> ops[i] == marks[i].op
  {
    if |marks| == 0 then [] else [marks[0].op] + MarkOps(marks[1..])
  }

  /** The `globalAlpha` values a canvas accepts; it ignores an assignment
      of any other value. */
  predicate AlphaAccepted(a: real)
  {
    0.0 <= a <= 1.0
  }

  /** The `lineWidth` values a canvas accepts; it ignores an assignment of
      zero or a negative width. */
  predicate LineWidthAccepted(w: real)
  {
    w > 0.0
  }

  /** One canvas call.  As the HTML canvas specification prescribes,
      `restore` with nothing saved does nothing, and an out-of-range
      `globalAlpha` or `lineWidth` is ignored. */
  function StepCanvas(c: CanvasState, op: CanvasOp): CanvasState
  {
    var s := c.state;
    match op
    case Save => c.(stack := [s] + c.stack)
    case Restore => if |c.stack| == 0 then c else c.(state := c.stack[0], stack := c.stack[1..])
    case Translate(_, _) => c.(state := s.(transform := s.transform + [op]))
    case Rotate(_) => c.(state := s.(transform := s.transform + [op]))
    case ScaleBy(_, _) => c.(state := s.(transform := s.transform + [op]))
    case SetFillStyle(col) => c.(state := s.(fill := col))
    case SetStrokeStyle(col) => c.(state := s.(stroke := col))
    case SetGlobalAlpha(a) => if AlphaAccepted(a) then c.(state := s.(alpha := a)) else c
    case SetComposite(k) => c.(state := s.(composite := k))
    case SetFont(px, family) => c.(state := s.(font := (px, family)))
    case SetTextAlign(a) => c.(state := s.(align := a))
    case SetTextBaseline(b) => c.(state := s.(baseline := b))
    case SetLineWidth(w) => if LineWidthAccepted(w) then c.(state := s.(lineWidth := w)) else c
    case _ => c.(painted := c.painted + [Mark(op, s)])
  }

  function RunCanvas(c: CanvasState, ops: seq<CanvasOp>): CanvasState
    decreases |ops|
  {
    if |ops| == 0 then c else RunCanvas(StepCanvas(c, ops[0]), ops[1..])
  }

  /** The WebGL renderer's blend mode and the quads it has accepted. */
  datatype GlState = GlState(additive: bool, quads: seq<GlOp>)

  datatype Backends = Backends(gl: GlState, main: CanvasState, overlay: CanvasState)

  function Step(b: Backends, cmd: Command): Backends
  {
    match cmd
    case Gl(GlSetBlendMode(additive)) => b.(gl := b.gl.(additive := additive))
    case Gl(op) => b.(gl := b.gl.(quads := b.gl.quads + [op]))
    case Ctx2D(MainCanvas, op) => b.(main := StepCanvas(b.main, op))
    case Ctx2D(OverlayCanvas, op) => b.(overlay := StepCanvas(b.overlay, op))
  }

  function Run(b: Backends, cmds: seq<Command>): Backends
    decreases |cmds|
  {
    if |cmds| == 0 then b else Run(Step(b, cmds[0]), cmds[1..])
  }

  /** Running two traces one after the other is running their concatenation. */
  lemma {:induction false} RunCanvasAppend(c: CanvasState, x: seq<CanvasOp>, y: seq<CanvasOp>)
    ensures RunCanvas(c, x + y) == RunCanvas(RunCanvas(c, x), y)
    decreases |x|
  {
    if |x| > 0 {
      assert (x + y)[0] == x[0];
      assert (x + y)[1..] == x[1..] + y;
      RunCanvasAppend(StepCanvas(c, x[0]), x[1..], y);
    } else {
      assert x + y == y;
    }
  }

  /** One style or paint call: the stack and transform stay, and the call is
      recorded exactly when it paints. */
  lemma StepStyleOrPaint(c: CanvasState, op: CanvasOp)
    requires !op.Save? && !op.Restore? && !IsTransform(op)
    ensures StepCanvas(c, op).stack == c.stack
    ensures StepCanvas(c, op).state.transform == c.state.transform
    ensures StepCanvas(c, op).painted == c.painted + (if IsPaint(op) then [Mark(op, c.state)] else [])
  {
  }

  lemma TailStyleAndPaint(ops: seq<CanvasOp>)
    requires |ops| > 0 && StyleAndPaintOnly(ops)
    ensures StyleAndPaintOnly(ops[1..])
    ensures !ops[0].Save? && !ops[0].Restore? && !IsTransform(ops[0])
  {
    forall i | 0 <= i < |ops[1..]|
      ensures !ops[1..][i].Save? && !ops[1..][i].Restore? && !IsTransform(ops[1..][i])
    {
      assert ops[1..][i] == ops[i + 1];
    }
  }

  lemma RunCanvas3(c: CanvasState, a: CanvasOp, b: CanvasOp, d: CanvasOp)
    ensures RunCanvas(c, [a, b, d]) == StepCanvas(StepCanvas(StepCanvas(c, a), b), d)
  {
    var c1 := StepCanvas(c, a);
    var c2 := StepCanvas(c1, b);
    assert [d][1..] == [];
    assert RunCanvas(c2, [d]) == RunCanvas(StepCanvas(c2, d), []);
    assert [b, d][1..] == [d];
    assert RunCanvas(c1, [b, d]) == RunCanvas(c2, [d]);
    assert [a, b, d][1..] == [b, d];
  }

  /** A trace of style and paint calls leaves the save stack and the
      transform alone. */
  lemma {:induction false} RunStyleKeepsFrame(c: CanvasState, ops: seq<CanvasOp>)
    requires StyleAndPaintOnly(ops)
    ensures RunCanvas(c, ops).stack == c.stack
    ensures RunCanvas(c, ops).state.transform == c.state.transform
    decreases |ops|
  {
    if |ops| > 0 {
      TailStyleAndPaint(ops);
      StepStyleOrPaint(c, ops[0]);
      RunStyleKeepsFrame(StepCanvas(c, ops[0]), ops[1..]);
    }
  }

  /** The marks a trace of style and paint calls appends: its paint calls,
      in order, each made under the transform in force. */
  predicate AppendsPaints(before: seq<Mark>, after: seq<Mark>, ops: seq<CanvasOp>, transform: seq<CanvasOp>)
  {
    && |after| >= |before|
    && after[..|before|] == before
    && MarkOps(after[|before|..]) == Paints(ops)
    && forall i :: |before| <= i < |after| ==> after[i].under.transform == transform
  }

  /** Calls that never save or restore: what a draw callback must be for
      the surrounding save and restore to pair up. */
  predicate SaveRestoreFree(ops: seq<CanvasOp>)
  {
    forall i :: 0 <= i < |ops| ==> !ops[i].Save? && !ops[i].Restore?
  }

  /** Without save or restore calls the save stack is left alone, whatever
      the calls do to the drawing state. */
  lemma {:induction false} RunKeepsStack(c: CanvasState, ops: seq<CanvasOp>)
    requires SaveRestoreFree(ops)
    ensures RunCanvas(c, ops).stack == c.stack
    decreases |ops|
  {
    if |ops| > 0 {
      assert SaveRestoreFree(ops[1..]) by {
        forall i | 0 <= i < |ops[1..]| ensures !ops[1..][i].Save? && !ops[1..][i].Restore? {
          assert ops[1..][i] == ops[i + 1];
        }
      }
      assert StepCanvas(c, ops[0]).stack == c.stack;
      RunKeepsStack(StepCanvas(c, ops[0]), ops[1..]);
    }
  }

  /** A trace of style and paint calls appends exactly its paint calls to
      the canvas, each made under the transform in force. */
  lemma {:induction false} RunStyleAppendsPaints(c: CanvasState, ops: seq<CanvasOp>)
    requires StyleAndPaintOnly(ops)
    ensures AppendsPaints(c.painted, RunCanvas(c, ops).painted, ops, c.state.transform)
    decreases |ops|
  {
    if |ops| == 0 {
      assert c.painted[|c.painted|..] == [];
    } else {
      var c1 := StepCanvas(c, ops[0]);
      TailStyleAndPaint(ops);
      StepStyleOrPaint(c, ops[0]);
      RunStyleAppendsPaints(c1, ops[1..]);
      var end := RunCanvas(c1, ops[1..]).painted;
      assert end[|c.painted|..] == c1.painted[|c.painted|..] + end[|c1.painted|..];
      MarkOpsAppend(c1.painted[|c.painted|..], end[|c1.painted|..]);
      assert Paints(ops) == (if IsPaint(ops[0]) then [ops[0]] else []) + Paints(ops[1..]);
      assert MarkOps(c1.painted[|c.painted|..]) == (if IsPaint(ops[0]) then [ops[0]] else []);
    }
  }

  lemma {:induction false} MarkOpsAppend(a: seq<Mark>, b: seq<Mark>)
    ensures MarkOps(a + b) == MarkOps(a) + MarkOps(b)
  {
    var l, r := MarkOps(a + b), MarkOps(a) + MarkOps(b);
    assert |l| == |r|;
    forall i | 0 <= i < |l| ensures l[i] == r[i] {
      if i < |a| { assert (a + b)[i] == a[i]; } else { assert (a + b)[i] == b[i - |a|]; }
    }
  }

  /** Commands issued on one canvas change that canvas only. */
  lemma {:induction false} RunOn(b: Backends, surface: Surface, ops: seq<CanvasOp>)
    ensures surface == MainCanvas ==> Run(b, On(surface, ops)) == b.(main := RunCanvas(b.main, ops))
    ensures surface == OverlayCanvas ==> Run(b, On(surface, ops)) == b.(overlay := RunCanvas(b.overlay, ops))
    decreases |ops|
  {
    if |ops| > 0 {
      var cmds := On(surface, ops);
      assert cmds[1..] == On(surface, ops[1..]);
      RunOn(Step(b, cmds[0]), surface, ops[1..]);
    }
  }
}

=== FILE: corrections.dfy ===
/** Two call sites in the draw layer do not do what their documentation says.
    Each is modelled as written in `Draw`; this module gives the evidently
    intended definition, proves the documented property of it, and shows
    where the two part ways. */
module Corrections {
  import opened Geometry
  import opened Render
  import opened Transform
  import opened TileSheet
  import opened Commands
  import opened Draw

  /** `drawLine` with its `useWebGL` argument passed to `drawRect` in the
      position `drawRect` declares. */
  function DrawLineIntended(ctx: Context, vm: VectorMath, a: Vec2, b: Vec2, thickness: real, color: Color,
                            hint: BackendHint): (cmds: seq<Command>)
    ensures (|cmds| == 1 && cmds[0].Gl?) <==> UsesWebGL(ctx, hint)
    ensures UsesWebGL(ctx, hint) ==>
              && cmds[0].gl.GlDraw?
              && cmds[0].gl.pos == Midpoint(a, b)
              && cmds[0].gl.size.x == thickness
              && cmds[0].gl.uv == ZeroUv
  {
    var r := LineRect(vm, a, b, thickness);
    DrawRect(ctx, r.center, r.size, color, r.angle, hint)
  }

  /** Whenever WebGL is enabled and the caller leaves `useWebGL` out, the
      line as written is drawn on Canvas2D while the intended one is a single
      WebGL quad. */
  lemma LineBackendDiffers(ctx: Context, vm: VectorMath, a: Vec2, b: Vec2, thickness: real, color: Color)
    requires ctx.glEnable
    ensures |DrawLine(ctx, vm, a, b, thickness, color, Default)| == 7
    ensures forall c | c in DrawLine(ctx, vm, a, b, thickness, color, Default) :: c.Ctx2D?
    ensures |DrawLineIntended(ctx, vm, a, b, thickness, color, Default)| == 1
    ensures DrawLineIntended(ctx, vm, a, b, thickness, color, Default)[0].Gl?
  {
    LineIgnoresBackendChoice(ctx, vm, a, b, thickness, color, Default, Default, ctx.glEnable);
  }

  /** `drawRectScreenSpace` calling `drawTileScreenSpace` as its name says:
      an untextured, unmirrored rectangle placed in screen space. */
  function DrawRectScreenSpaceIntended(ctx: Context, pos: Vec2, size: Vec2, color: Color, angle: real,
                                       hint: BackendHint): (r: DrawOutcome)
    requires ctx.cameraScale != 0.0
    ensures r.Drawn?
    ensures UsesWebGL(ctx, hint) ==>
              && r.cmds == [Gl(GlDraw(ScreenToWorld(ctx, pos), Scale(size, 1.0 / ctx.cameraScale),
                                      angle, ZeroUv, Clear, color))]
              && WorldToScreen(ctx, r.cmds[0].gl.pos) == pos
    ensures !UsesWebGL(ctx, hint) ==>
              && |r.cmds| == 7
              && r.cmds[1] == Ctx2D(MainCanvas, Translate(Trunc(pos.x + 0.5), Trunc(pos.y - 0.5)))
              && r.cmds[3] == Ctx2D(MainCanvas, ScaleBy(size.x, size.y))
              && r.cmds[5] == Ctx2D(MainCanvas, FillRect(-0.5, -0.5, 1.0, 1.0))
  {
    ScreenSpaceRoundTrip(ctx, pos, size, -1, ctx.tileSizeDefault, color, angle, false, Clear, hint);
    Drawn(DrawTileScreenSpace(ctx, pos, size, -1, ctx.tileSizeDefault, color, angle, false, Clear, hint))
  }

  /** For every input the written function throws where the intended one
      draws. */
  lemma RectScreenSpaceDiffers(ctx: Context, pos: Vec2, size: Vec2, color: Color, angle: real, hint: BackendHint)
    requires ctx.cameraScale != 0.0
    ensures DrawRectScreenSpace(ctx, pos, size, color, angle, hint).ReferenceError?
    ensures DrawRectScreenSpaceIntended(ctx, pos, size, color, angle, hint).Drawn?
  {
  }
}

=== FILE: draw.dfy ===
/** The draw primitives.  Each takes the render context explicitly and
    returns the backend commands it would issue, in order. */
module Draw {
  import opened Geometry
  import opened Render
  import opened Transform
  import opened TileSheet
  import opened Commands

  /** The transform `drawCanvas2D` sets up: translate to the snapped screen
      position, rotate, then scale by the screen size (x negated to mirror). */
  function Canvas2DTransform(ctx: Context, pos: Vec2, size: Vec2, angle: real, mirror: bool): seq<CanvasOp>
  {
    var p := WorldToScreen(ctx, pos);
    var s := Scale(size, ctx.cameraScale);
    [Translate(Trunc(p.x + 0.5), Trunc(p.y - 0.5)), Rotate(angle), ScaleBy(if mirror then -s.x else s.x, s.y)]
  }

  /** `drawCanvas2D`: the draw callback's calls, bracketed by save and
      restore around the world-to-screen transform. */
  function DrawCanvas2D(ctx: Context, pos: Vec2, size: Vec2, angle: real, mirror: bool, body: seq<CanvasOp>): (ops: seq<CanvasOp>)
    ensures |ops| == |body| + 5
    ensures ops[0] == Save && ops[|ops| - 1] == Restore
    ensures var p := WorldToScreen(ctx, pos);
      && ops[1] == Translate(Trunc(p.x + 0.5), Trunc(p.y - 0.5))
      && ops[2] == Rotate(angle)
      && ops[3].ScaleBy? && ops[3].sy == size.y * ctx.cameraScale
      && (ops[3].sx == size.x * ctx.cameraScale <==> !mirror || size.x * ctx.cameraScale == 0.0)
      && (mirror ==> ops[3].sx == -(size.x * ctx.cameraScale))
    ensures ops[4..|ops| - 1] == body
  {
    [Save] + Canvas2DTransform(ctx, pos, size, angle, mirror) + body + [Restore]
  }

  /** The save and the three transform calls: the entry state goes on top
      of the save stack and the world-to-screen transform is put in force. */
  lemma Canvas2DPrefix(ctx: Context, pos: Vec2, size: Vec2, angle: real, mirror: bool, c: CanvasState)
    ensures var t := Canvas2DTransform(ctx, pos, size, angle, mirror);
      RunCanvas(c, [Save] + t)
      == c.(state := c.state.(transform := c.state.transform + t), stack := [c.state] + c.stack)
  {
    var t := Canvas2DTransform(ctx, pos, size, angle, mirror);
    var prefix := [Save] + t;
    var s0 := StepCanvas(c, Save);
    assert prefix[1..] == t;
    var s1 := StepCanvas(s0, t[0]);
    assert t[1..] == [t[1], t[2]];
    var s2 := StepCanvas(s1, t[1]);
    assert t[1..][1..] == [t[2]];
    var s3 := StepCanvas(s2, t[2]);
    assert [t[2]][1..] == [];
    assert RunCanvas(s2, [t[2]]) == s3;
    assert RunCanvas(s1, [t[1], t[2]]) == s3;
    assert RunCanvas(s0, t) == s3;
    assert s3.state.transform == c.state.transform + [t[0], t[1], t[2]];
    assert [t[0], t[1], t[2]] == t;
  }

  /** Save and restore pair up around any callback that does not save or
      restore itself, even one that transforms: the drawing state and the
      save stack are restored, and what remains is the callback's marks,
      made with the world-to-screen transform in force. */
  lemma {:induction false} Canvas2DRestores(ctx: Context, pos: Vec2, size: Vec2, angle: real, mirror: bool,
                                            body: seq<CanvasOp>, c: CanvasState)
    requires SaveRestoreFree(body)
    ensures var after := RunCanvas(c, DrawCanvas2D(ctx, pos, size, angle, mirror, body));
      var t := Canvas2DTransform(ctx, pos, size, angle, mirror);
      && after.state == c.state
      && after.stack == c.stack
      && after.painted
         == RunCanvas(c.(state := c.state.(transform := c.state.transform + t), stack := [c.state] + c.stack), body).painted
  {
    var t := Canvas2DTransform(ctx, pos, size, angle, mirror);
    var prefix := [Save] + t;
    var ops := DrawCanvas2D(ctx, pos, size, angle, mirror, body);
    assert ops == prefix + (body + [Restore]);
    RunCanvasAppend(c, prefix, body + [Restore]);
    Canvas2DPrefix(ctx, pos, size, angle, mirror, c);
    var c1 := RunCanvas(c, prefix);
    RunCanvasAppend(c1, body, [Restore]);
    RunKeepsStack(c1, body);
    assert [Restore][1..] == [];
  }

  /** For a callback that only sets style properties and paints, the paint
      calls are exactly the callback's, each made under the world-to-screen
      transform. */
  lemma {:induction false} Canvas2DBalanced(ctx: Context, pos: Vec2, size: Vec2, angle: real, mirror: bool,
                                            body: seq<CanvasOp>, c: CanvasState)
    requires StyleAndPaintOnly(body)
    ensures var after := RunCanvas(c, DrawCanvas2D(ctx, pos, size, angle, mirror, body));
      && after.state == c.state
      && after.stack == c.stack
      && AppendsPaints(c.painted, after.painted, body,
                       c.state.transform + Canvas2DTransform(ctx, pos, size, angle, mirror))
  {
    var t := Canvas2DTransform(ctx, pos, size, angle, mirror);
    Canvas2DRestores(ctx, pos, size, angle, mirror, body, c);
    var c1 := c.(state := c.state.(transform := c.state.transform + t), stack := [c.state] + c.stack);
    RunStyleAppendsPaints(c1, body);
  }

  /** The callback `drawTile` hands to `drawCanvas2D`: a unit square filled
      with the colour for a negative index, otherwise the tile's source
      rectangle drawn with the colour's alpha.  The image's load state is
      not consulted. */
  function TileBody(ctx: Context, index: int, tile: PixelSize, color: Color): (body: seq<CanvasOp>)
    ensures StyleAndPaintOnly(body)
    ensures index < 0 ==> Paints(body) == [FillRect(-0.5, -0.5, 1.0, 1.0)]
    ensures index >= 0 ==>
              Paints(body) == [DrawImage(TileSource(ctx.sheet, ctx.fixBleedScale, tile, index), -0.5, -0.5, 1.0, 1.0)]
  {
    var body :=
      if index < 0 then [SetFillStyle(color), FillRect(-0.5, -0.5, 1.0, 1.0)]
      else [SetGlobalAlpha(color.a), DrawImage(TileSource(ctx.sheet, ctx.fixBleedScale, tile, index), -0.5, -0.5, 1.0, 1.0)];
    assert Paints(body) == Paints(body[1..]);
    body
  }

  /** The callback sets the colour (the fill style for a negative index,
      only the global alpha for a tile image, which the canvas ignores when
      it lies outside [0, 1]) and then makes its one paint under that state. */
  lemma TileBodyRun(ctx: Context, index: int, tile: PixelSize, color: Color, c: CanvasState)
    ensures var body := TileBody(ctx, index, tile, color);
      var styled := if index < 0 then c.state.(fill := color)
                    else if AlphaAccepted(color.a) then c.state.(alpha := color.a) else c.state;
      RunCanvas(c, body) == c.(state := styled, painted := c.painted + [Mark(Paints(body)[0], styled)])
  {
    var body := TileBody(ctx, index, tile, color);
    var styled := if index < 0 then c.state.(fill := color)
                  else if AlphaAccepted(color.a) then c.state.(alpha := color.a) else c.state;
    assert |body| == 2 && IsPaint(body[1]) && !IsPaint(body[0]);
    assert Paints(body)[0] == body[1];
    var c1 := StepCanvas(c, body[0]);
    assert c1 == c.(state := styled);
    assert body[1..] == [body[1]];
    assert [body[1]][1..] == [];
    assert RunCanvas(c, body) == RunCanvas(c1, [body[1]]);
    assert RunCanvas(c1, [body[1]]) == StepCanvas(c1, body[1]);
  }

  /** `drawTile`: one `glDraw` quad on the WebGL path, otherwise the Canvas2D
      trace.  For a negative index or an unloaded image WebGL draws
      untextured: zero UVs, a zero multiplying colour, and the caller's
      colour passed in the additive slot, so the caller's additive colour
      is dropped.  Otherwise it draws the tile's inset UV rectangle with the
      width negated to mirror, under the colour and the additive colour. */
  function DrawTile(ctx: Context, pos: Vec2, size: Vec2, index: int, tile: PixelSize, color: Color,
                    angle: real, mirror: bool, additive: Color, hint: BackendHint): (cmds: seq<Command>)
    ensures UsesWebGL(ctx, hint) <==> (|cmds| == 1 && cmds[0].Gl?)
    ensures UsesWebGL(ctx, hint) && (index < 0 || !ctx.imageLoaded) ==>
              cmds == [Gl(GlDraw(pos, size, angle, ZeroUv, Clear, color))]
    ensures UsesWebGL(ctx, hint) && index >= 0 && ctx.imageLoaded ==>
              cmds == [Gl(GlDraw(pos, Vec2(if mirror then -size.x else size.x, size.y), angle,
                                 TileUv(ctx.sheet, ctx.fixBleed, tile, index), color, additive))]
    ensures !UsesWebGL(ctx, hint) ==>
              cmds == On(MainCanvas, DrawCanvas2D(ctx, pos, size, angle, mirror, TileBody(ctx, index, tile, color)))
  {
    if UsesWebGL(ctx, hint) then
      if index < 0 || !ctx.imageLoaded then
        [Gl(GlDraw(pos, size, angle, ZeroUv, Clear, color))]
      else
        var w := if mirror then -size.x else size.x;
        [Gl(GlDraw(pos, Vec2(w, size.y), angle, TileUv(ctx.sheet, ctx.fixBleed, tile, index), color, additive))]
    else
      On(MainCanvas, DrawCanvas2D(ctx, pos, size, angle, mirror, TileBody(ctx, index, tile, color)))
  }

  /** A draw call touches the selected backend only: WebGL gains exactly one
      quad, or the main canvas gains exactly the callback's one paint call and
      is otherwise left as it was. */
  lemma DrawTileEffect(ctx: Context, pos: Vec2, size: Vec2, index: int, tile: PixelSize, color: Color,
                       angle: real, mirror: bool, additive: Color, hint: BackendHint, b: Backends)
    ensures var cmds := DrawTile(ctx, pos, size, index, tile, color, angle, mirror, additive, hint);
      var after := Run(b, cmds);
      if UsesWebGL(ctx, hint) then
        after == b.(gl := b.gl.(quads := b.gl.quads + [cmds[0].gl]))
      else
        && after.gl == b.gl
        && after.overlay == b.overlay
        && after.main.state == b.main.state
        && after.main.stack == b.main.stack
        && |after.main.painted| == |b.main.painted| + 1
        && AppendsPaints(b.main.painted, after.main.painted, TileBody(ctx, index, tile, color),
                         b.main.state.transform + Canvas2DTransform(ctx, pos, size, angle, mirror))
        && var framed := b.main.state.(transform := b.main.state.transform + Canvas2DTransform(ctx, pos, size, angle, mirror));
           after.main.painted[|b.main.painted|].under
           == if index < 0 then framed.(fill := color)
              else if AlphaAccepted(color.a) then framed.(alpha := color.a) else framed
  {
    var cmds := DrawTile(ctx, pos, size, index, tile, color, angle, mirror, additive, hint);
    if UsesWebGL(ctx, hint) {
      assert cmds[1..] == [];
    } else {
      var body := TileBody(ctx, index, tile, color);
      RunOn(b, MainCanvas, DrawCanvas2D(ctx, pos, size, angle, mirror, body));
      Canvas2DBalanced(ctx, pos, size, angle, mirror, body, b.main);
      Canvas2DRestores(ctx, pos, size, angle, mirror, body, b.main);
      var c := b.main;
      var t := Canvas2DTransform(ctx, pos, size, angle, mirror);
      TileBodyRun(ctx, index, tile, color, c.(state := c.state.(transform := c.state.transform + t), stack := [c.state] + c.stack));
    }
  }

  /** Mirroring: on the textured WebGL path it negates the width and keeps
      the UVs; the untextured WebGL path ignores it; on Canvas2D it negates
      the x scale and changes nothing else. */
  lemma DrawTileMirror(ctx: Context, pos: Vec2, size: Vec2, index: int, tile: PixelSize, color: Color,
                       angle: real, additive: Color, hint: BackendHint)
    ensures var plain := DrawTile(ctx, pos, size, index, tile, color, angle, false, additive, hint);
      var flipped := DrawTile(ctx, pos, size, index, tile, color, angle, true, additive, hint);
      && |plain| == |flipped|
      && (UsesWebGL(ctx, hint) && index >= 0 && ctx.imageLoaded ==>
            && flipped[0].gl.uv == plain[0].gl.uv
            && flipped[0].gl.size == Vec2(-plain[0].gl.size.x, plain[0].gl.size.y))
      && (UsesWebGL(ctx, hint) && (index < 0 || !ctx.imageLoaded) ==> flipped == plain)
      && (!UsesWebGL(ctx, hint) ==>
            && plain[3] == Ctx2D(MainCanvas, ScaleBy(size.x * ctx.cameraScale, size.y * ctx.cameraScale))
            && flipped[3] == Ctx2D(MainCanvas, ScaleBy(-(size.x * ctx.cameraScale), size.y * ctx.cameraScale))
            && forall i :: 0 <= i < |plain| && i != 3 ==> flipped[i] == plain[i])
  {
    if !UsesWebGL(ctx, hint) {
      var body := TileBody(ctx, index, tile, color);
      var p := DrawCanvas2D(ctx, pos, size, angle, false, body);
      var f := DrawCanvas2D(ctx, pos, size, angle, true, body);
      assert p[3] == ScaleBy(size.x * ctx.cameraScale, size.y * ctx.cameraScale);
      assert f[3] == ScaleBy(-(size.x * ctx.cameraScale), size.y * ctx.cameraScale);
      assert forall i :: 0 <= i < |p| && i != 3 ==> f[i] == p[i];
    }
  }

  /** Unlike the WebGL path, the Canvas2D path draws the same thing whether
      or not the tile image has loaded. */
  lemma Canvas2DIgnoresImageLoad(ctx: Context, pos: Vec2, size: Vec2, index: int, tile: PixelSize, color: Color,
                                 angle: real, mirror: bool, additive: Color, hint: BackendHint)
    requires !UsesWebGL(ctx, hint)
    ensures DrawTile(ctx.(imageLoaded := true), pos, size, index, tile, color, angle, mirror, additive, hint)
         == DrawTile(ctx.(imageLoaded := false), pos, size, index, tile, color, angle, mirror, additive, hint)
  {
    var loaded, unloaded := ctx.(imageLoaded := true), ctx.(imageLoaded := false);
    assert WorldToScreen(loaded, pos) == WorldToScreen(unloaded, pos);
    assert Canvas2DTransform(loaded, pos, size, angle, mirror) == Canvas2DTransform(unloaded, pos, size, angle, mirror);
    assert TileBody(loaded, index, tile, color) == TileBody(unloaded, index, tile, color);
  }

  /** A negative tile index never draws from a tile's cell, whichever
      backend is chosen and whether or not the image has loaded: Canvas2D
      makes no `drawImage` call, and WebGL gets zero UVs under a zero
      multiplying colour, so the drawn colour is the additive one, which is
      the caller's colour whatever additive colour the caller gave. */
  lemma UntexturedNeverSamples(ctx: Context, pos: Vec2, size: Vec2, index: int, tile: PixelSize, color: Color,
                               angle: real, mirror: bool, additive: Color, hint: BackendHint)
    requires index < 0
    ensures var cmds := DrawTile(ctx, pos, size, index, tile, color, angle, mirror, additive, hint);
      forall i :: 0 <= i < |cmds| ==>
        && (cmds[i].Gl? ==> && cmds[i].gl.uv == ZeroUv && cmds[i].gl.color == Clear
                            && cmds[i].gl.additive == color)
        && (cmds[i].Ctx2D? ==> !cmds[i].op.DrawImage?)
  {
  }

  /** `drawRect`: `drawTile` with index -1, so always the untextured branch,
      and never mirrored. */
  function DrawRect(ctx: Context, pos: Vec2, size: Vec2, color: Color, angle: real, hint: BackendHint): (cmds: seq<Command>)
    ensures UsesWebGL(ctx, hint) ==> cmds == [Gl(GlDraw(pos, size, angle, ZeroUv, Clear, color))]
    ensures !UsesWebGL(ctx, hint) ==>
              cmds == On(MainCanvas, DrawCanvas2D(ctx, pos, size, angle, false,
                                                  [SetFillStyle(color), FillRect(-0.5, -0.5, 1.0, 1.0)]))
  {
    DrawTile(ctx, pos, size, -1, ctx.tileSizeDefault, color, angle, false, Clear, hint)
  }

  /** `drawTileScreenSpace`: the position goes through `screenToWorld` and
      the size is divided by the camera scale before `drawTile`. */
  function DrawTileScreenSpace(ctx: Context, pos: Vec2, size: Vec2, index: int, tile: PixelSize, color: Color,
                               angle: real, mirror: bool, additive: Color, hint: BackendHint): (cmds: seq<Command>)
    requires ctx.cameraScale != 0.0
    ensures UsesWebGL(ctx, hint) ==>
              |cmds| == 1 && cmds[0].Gl? && cmds[0].gl.GlDraw? && WorldToScreen(ctx, cmds[0].gl.pos) == pos
  {
    DrawTile(ctx, ScreenToWorld(ctx, pos), Scale(size, 1.0 / ctx.cameraScale),
             index, tile, color, angle, mirror, additive, hint)
  }

  /** A screen-space draw lands where it was asked to: on Canvas2D the
      translation is the given position snapped the way `drawCanvas2D` snaps
      and the scale is the given size; on WebGL the quad's world position and
      size map back to the given ones. */
  lemma ScreenSpaceRoundTrip(ctx: Context, pos: Vec2, size: Vec2, index: int, tile: PixelSize, color: Color,
                             angle: real, mirror: bool, additive: Color, hint: BackendHint)
    requires ctx.cameraScale != 0.0
    ensures var cmds := DrawTileScreenSpace(ctx, pos, size, index, tile, color, angle, mirror, additive, hint);
      if UsesWebGL(ctx, hint) then
        && WorldToScreen(ctx, cmds[0].gl.pos) == pos
        && Scale(cmds[0].gl.size, ctx.cameraScale)
           == (if mirror && index >= 0 && ctx.imageLoaded then Vec2(-size.x, size.y) else size)
      else
        && cmds[1] == Ctx2D(MainCanvas, Translate(Trunc(pos.x + 0.5), Trunc(pos.y - 0.5)))
        && cmds[3] == Ctx2D(MainCanvas, ScaleBy(if mirror then -size.x else size.x, size.y))
  {
    var s := ctx.cameraScale;
    var w := ScreenToWorld(ctx, pos);
    var sz := Scale(size, 1.0 / s);
    assert size.x * (1.0 / s) * s == size.x;
    assert size.y * (1.0 / s) * s == size.y;
    assert Scale(sz, s) == size;
    if !UsesWebGL(ctx, hint) {
      var ops := DrawCanvas2D(ctx, w, sz, angle, mirror, TileBody(ctx, index, tile, color));
      assert ops[1] == Translate(Trunc(pos.x + 0.5), Trunc(pos.y - 0.5));
      assert ops[3] == ScaleBy(if mirror then -size.x else size.x, size.y);
    }
  }

  /** What `drawRectScreenSpace` yields: it calls the misspelled
      `drawTileSrceenSpace`, which is defined nowhere, so the call throws. */
  datatype DrawOutcome = Drawn(cmds: seq<Command>) | ReferenceError(name: string)

  /** `drawRectScreenSpace` as written: the callee name is resolved before
      any argument is evaluated, so every call ends in a ReferenceError and
      nothing is drawn. */
  function DrawRectScreenSpace(ctx: Context, pos: Vec2, size: Vec2, color: Color, angle: real, hint: BackendHint): (r: DrawOutcome)
    ensures r.ReferenceError? && r.name != "drawTileScreenSpace"
  {
    ReferenceError("drawTileSrceenSpace")
  }

  /** The rectangle `drawLine` draws: centred half way along, as wide as the
      thickness, as long as the segment (given a genuine host length), and
      turned to the direction's angle. */
  datatype LineGeometry = LineGeometry(center: Vec2, size: Vec2, angle: real)

  function HalfDelta(a: Vec2, b: Vec2): Vec2
  {
    Vec2((b.x - a.x) / 2.0, (b.y - a.y) / 2.0)
  }

  function LineRect(vm: VectorMath, a: Vec2, b: Vec2, thickness: real): (r: LineGeometry)
    ensures r.center == Midpoint(a, b)
    ensures r.size.x == thickness
    ensures IsLength(vm, HalfDelta(a, b)) ==>
              r.size.y >= 0.0 && r.size.y * r.size.y == LengthSquared(Sub(b, a))
  {
    var half := HalfDelta(a, b);
    LineGeometry(Add(a, half), Vec2(thickness, vm.length(half) * 2.0), vm.angle(half))
  }

  /** `drawLine` as written: it passes `0, 0, useWebGL` after the angle, but
      `drawRect` takes only five parameters, so its `useWebGL` receives the
      falsy `0`.  Every line therefore takes the Canvas2D path, whatever the
      caller asked for. */
  function DrawLine(ctx: Context, vm: VectorMath, a: Vec2, b: Vec2, thickness: real, color: Color,
                    hint: BackendHint): (cmds: seq<Command>)
    ensures var r := LineRect(vm, a, b, thickness);
      cmds == On(MainCanvas, DrawCanvas2D(ctx, r.center, r.size, r.angle, false,
                                          [SetFillStyle(color), FillRect(-0.5, -0.5, 1.0, 1.0)]))
  {
    var r := LineRect(vm, a, b, thickness);
    DrawRect(ctx, r.center, r.size, color, r.angle, UseWebGL(false))
  }

  /** Neither the caller's backend choice nor `glEnable` changes a line. */
  lemma LineIgnoresBackendChoice(ctx: Context, vm: VectorMath, a: Vec2, b: Vec2, thickness: real, color: Color,
                                 hint: BackendHint, hint': BackendHint, glEnable: bool)
    ensures DrawLine(ctx, vm, a, b, thickness, color, hint)
         == DrawLine(ctx.(glEnable := glEnable), vm, a, b, thickness, color, hint')
    ensures forall c | c in DrawLine(ctx, vm, a, b, thickness, color, hint) :: c.Ctx2D? && c.surface == MainCanvas
  {
  }

  /** `drawText`: always on the overlay canvas.  Font size and line width
      are scaled to pixels; the outline is stroked only for a non-zero line
      width, and before the fill, both at the text's screen position. */
  function DrawText(ctx: Context, text: string, pos: Vec2, size: real, color: Color, lineWidth: real,
                    lineColor: Color, align: string, font: string): (cmds: seq<Command>)
    ensures |cmds| == (if lineWidth != 0.0 then 8 else 5)
    ensures forall c | c in cmds :: c.Ctx2D? && c.surface == OverlayCanvas
    ensures var p := WorldToScreen(ctx, pos);
      && StyleAndPaintOnly(CanvasCalls(cmds))
      && Paints(CanvasCalls(cmds)) == (if lineWidth != 0.0 then [StrokeText(text, p.x, p.y)] else []) + [FillText(text, p.x, p.y)]
  {
    var ops := TextOps(ctx, text, pos, size, color, lineWidth, lineColor, align, font);
    CanvasCallsOn(OverlayCanvas, ops);
    On(OverlayCanvas, ops)
  }

  /** The canvas calls of `drawText`, in order. */
  function TextOps(ctx: Context, text: string, pos: Vec2, size: real, color: Color, lineWidth: real,
                   lineColor: Color, align: string, font: string): (ops: seq<CanvasOp>)
    ensures StyleAndPaintOnly(ops)
    ensures var p := WorldToScreen(ctx, pos);
      && Paints(ops) == (if lineWidth != 0.0 then [StrokeText(text, p.x, p.y)] else []) + [FillText(text, p.x, p.y)]
      && |ops| > 0 && ops[|ops| - 1] == FillText(text, p.x, p.y)
  {
    var p := WorldToScreen(ctx, pos);
    var head := TextHead(ctx, size, align, font);
    var stroke := TextStroke(ctx, text, p, lineWidth, lineColor);
    var fill := TextFill(color, text, p);
    StyledConcat3(head, stroke, fill);
    var ops := head + stroke + fill;
    assert ops[|ops| - 1] == fill[1];
    ops
  }

  /** The fill style, then the text filled at screen point `p`. */
  function TextFill(color: Color, text: string, p: Vec2): (ops: seq<CanvasOp>)
    ensures StyleAndPaintOnly(ops)
    ensures Paints(ops) == [FillText(text, p.x, p.y)]
    ensures |ops| == 2 && ops[1] == FillText(text, p.x, p.y)
  {
    FillOnce(color, FillText(text, p.x, p.y));
    [SetFillStyle(color), FillText(text, p.x, p.y)]
  }

  /** Converts a world-unit length (font size, line width) to pixels. */
  function ToPixels(ctx: Context, v: real): real
  {
    v * ctx.cameraScale
  }

  /** A fill style followed by one paint call paints exactly that call. */
  lemma FillOnce(color: Color, op: CanvasOp)
    requires IsPaint(op) && !IsTransform(op)
    ensures StyleAndPaintOnly([SetFillStyle(color), op])
    ensures Paints([SetFillStyle(color), op]) == [op]
  {
    assert [SetFillStyle(color), op] == [SetFillStyle(color)] + [op];
    NoPaints([SetFillStyle(color)]);
    PaintsSingle(op);
    PaintsAppend([SetFillStyle(color)], [op]);
  }

  /** Three style-and-paint traces in a row: still style and paint only,
      painting the three traces' paints in order. */
  lemma StyledConcat3(x: seq<CanvasOp>, y: seq<CanvasOp>, z: seq<CanvasOp>)
    requires StyleAndPaintOnly(x) && StyleAndPaintOnly(y) && StyleAndPaintOnly(z)
    ensures StyleAndPaintOnly(x + y + z)
    ensures Paints(x + y + z) == Paints(x) + Paints(y) + Paints(z)
  {
    PaintsAppend(x, y);
    PaintsAppend(x + y, z);
    StyleAndPaintOnlyAppend(x, y);
    StyleAndPaintOnlyAppend(x + y, z);
  }

  /** Font, alignment and baseline, set before anything is drawn. */
  function TextHead(ctx: Context, size: real, align: string, font: string): (ops: seq<CanvasOp>)
    ensures StyleAndPaintOnly(ops) && Paints(ops) == []
  {
    NoPaints([SetFont(ToPixels(ctx, size), font), SetTextAlign(align), SetTextBaseline("middle")]);
    [SetFont(ToPixels(ctx, size), font), SetTextAlign(align), SetTextBaseline("middle")]
  }

  /** The outline, drawn only for a non-zero line width. */
  function TextStroke(ctx: Context, text: string, p: Vec2, lineWidth: real, lineColor: Color): (ops: seq<CanvasOp>)
    ensures StyleAndPaintOnly(ops)
    ensures Paints(ops) == (if lineWidth != 0.0 then [StrokeText(text, p.x, p.y)] else [])
  {
    if lineWidth != 0.0 then
      var style := [SetLineWidth(ToPixels(ctx, lineWidth)), SetStrokeStyle(lineColor)];
      NoPaints(style);
      PaintsSingle(StrokeText(text, p.x, p.y));
      PaintsAppend(style, [StrokeText(text, p.x, p.y)]);
      style + [StrokeText(text, p.x, p.y)]
    else []
  }

  /** The font, alignment and baseline `drawText` sets on a canvas in state `s`. */
  function LaidOut(ctx: Context, s: DrawingState, size: real, align: string, font: string): DrawingState
  {
    s.(font := (ToPixels(ctx, size), font), align := align, baseline := "middle")
  }

  /** The outline style `drawText` sets, only for a non-zero line width:
      the stroke colour always, the pixel line width only when the canvas
      accepts it (a negative width is ignored and the previous one kept). */
  function Outlined(ctx: Context, s: DrawingState, lineWidth: real, lineColor: Color): DrawingState
  {
    if lineWidth == 0.0 then s
    else if LineWidthAccepted(ToPixels(ctx, lineWidth)) then s.(lineWidth := ToPixels(ctx, lineWidth), stroke := lineColor)
    else s.(stroke := lineColor)
  }

  /** The drawing state `drawText`'s calls leave behind on a canvas in state `s`. */
  function TextStyled(ctx: Context, s: DrawingState, size: real, color: Color, lineWidth: real,
                      lineColor: Color, align: string, font: string): DrawingState
  {
    Outlined(ctx, LaidOut(ctx, s, size, align, font), lineWidth, lineColor).(fill := color)
  }

  lemma TextHeadState(ctx: Context, size: real, align: string, font: string, c: CanvasState)
    ensures RunCanvas(c, TextHead(ctx, size, align, font)).state == LaidOut(ctx, c.state, size, align, font)
  {
    var a, b, d := SetFont(ToPixels(ctx, size), font), SetTextAlign(align), SetTextBaseline("middle");
    var head := TextHead(ctx, size, align, font);
    assert |head| == 3 && head[0] == a && head[1] == b && head[2] == d;
    assert head == [a, b, d];
    RunCanvas3(c, a, b, d);
    var c1 := StepCanvas(c, a);
    assert c1.state == c.state.(font := (ToPixels(ctx, size), font));
    var c2 := StepCanvas(c1, b);
    assert c2.state == c1.state.(align := align);
    assert StepCanvas(c2, d).state == c2.state.(baseline := "middle");
  }

  lemma TextStrokeState(ctx: Context, text: string, p: Vec2, lineWidth: real, lineColor: Color, c: CanvasState)
    ensures RunCanvas(c, TextStroke(ctx, text, p, lineWidth, lineColor)).state == Outlined(ctx, c.state, lineWidth, lineColor)
  {
    if lineWidth != 0.0 {
      var a, b, d := SetLineWidth(ToPixels(ctx, lineWidth)), SetStrokeStyle(lineColor), StrokeText(text, p.x, p.y);
      var stroke := TextStroke(ctx, text, p, lineWidth, lineColor);
      assert |stroke| == 3 && stroke[0] == a && stroke[1] == b && stroke[2] == d;
      assert stroke == [a, b, d];
      RunCanvas3(c, a, b, d);
      var c1 := StepCanvas(c, a);
      assert c1.state == if LineWidthAccepted(ToPixels(ctx, lineWidth)) then c.state.(lineWidth := ToPixels(ctx, lineWidth))
                         else c.state;
      var c2 := StepCanvas(c1, b);
      assert c2.state == c1.state.(stroke := lineColor);
      assert StepCanvas(c2, d).state == c2.state;
    } else {
      assert TextStroke(ctx, text, p, lineWidth, lineColor) == [];
    }
  }

  /** The calls before the final fill only set style properties or stroke,
      and leave the styled state. */
  lemma {:induction false} TextPrefixState(ctx: Context, text: string, pos: Vec2, size: real, color: Color,
                                           lineWidth: real, lineColor: Color, align: string, font: string, c: CanvasState)
    ensures var ops := TextOps(ctx, text, pos, size, color, lineWidth, lineColor, align, font);
      RunCanvas(c, ops[..|ops| - 1]).state == TextStyled(ctx, c.state, size, color, lineWidth, lineColor, align, font)
  {
    var ops := TextOps(ctx, text, pos, size, color, lineWidth, lineColor, align, font);
    var p := WorldToScreen(ctx, pos);
    var head := TextHead(ctx, size, align, font);
    var stroke := TextStroke(ctx, text, p, lineWidth, lineColor);
    var pre := head + stroke + [SetFillStyle(color)];
    assert ops == pre + [FillText(text, p.x, p.y)];
    assert ops[..|ops| - 1] == pre;
    RunCanvasAppend(c, head + stroke, [SetFillStyle(color)]);
    RunCanvasAppend(c, head, stroke);
    TextHeadState(ctx, size, align, font, c);
    TextStrokeState(ctx, text, p, lineWidth, lineColor, RunCanvas(c, head));
    var c1 := RunCanvas(c, head);
    var c2 := RunCanvas(c1, stroke);
    assert RunCanvas(c2, [SetFillStyle(color)]) == StepCanvas(c2, SetFillStyle(color)) by {
      assert [SetFillStyle(color)][1..] == [];
    }
    assert RunCanvas(c, ops[..|ops| - 1]) == StepCanvas(c2, SetFillStyle(color));
    assert StepCanvas(c2, SetFillStyle(color)).state == c2.state.(fill := color);
  }

  /** `drawText` touches the overlay canvas only and, unlike `drawCanvas2D`,
      does not save and restore: its font, alignment, baseline and fill
      style (and, when outlining, line width and stroke style) stay set
      afterwards.  The text is filled last, under exactly that state. */
  lemma {:induction false} DrawTextEffect(ctx: Context, text: string, pos: Vec2, size: real, color: Color,
                                          lineWidth: real, lineColor: Color, align: string, font: string, b: Backends)
    ensures var after := Run(b, DrawText(ctx, text, pos, size, color, lineWidth, lineColor, align, font));
      var p := WorldToScreen(ctx, pos);
      && after.gl == b.gl
      && after.main == b.main
      && after.overlay.stack == b.overlay.stack
      && after.overlay.state == TextStyled(ctx, b.overlay.state, size, color, lineWidth, lineColor, align, font)
      && AppendsPaints(b.overlay.painted, after.overlay.painted,
                       TextOps(ctx, text, pos, size, color, lineWidth, lineColor, align, font), b.overlay.state.transform)
      && after.overlay.painted[|after.overlay.painted| - 1] == Mark(FillText(text, p.x, p.y), after.overlay.state)
  {
    var ops := TextOps(ctx, text, pos, size, color, lineWidth, lineColor, align, font);
    var p := WorldToScreen(ctx, pos);
    RunOn(b, OverlayCanvas, ops);
    RunStyleKeepsFrame(b.overlay, ops);
    RunStyleAppendsPaints(b.overlay, ops);
    var pre := ops[..|ops| - 1];
    assert ops == pre + [ops[|ops| - 1]];
    RunCanvasAppend(b.overlay, pre, [FillText(text, p.x, p.y)]);
    assert [FillText(text, p.x, p.y)][1..] == [];
    TextPrefixState(ctx, text, pos, size, color, lineWidth, lineColor, align, font, b.overlay);
  }

  /** `setBlendMode`: the WebGL blend mode, or the main canvas's composite
      operation (`lighter` for additive, `source-over` otherwise). */
  function SetBlendMode(ctx: Context, additive: bool, hint: BackendHint): (cmds: seq<Command>)
    ensures |cmds| == 1
    ensures cmds[0].Gl? <==> UsesWebGL(ctx, hint)
  {
    if UsesWebGL(ctx, hint) then [Gl(GlSetBlendMode(additive))]
    else [Ctx2D(MainCanvas, SetComposite(if additive then Lighter else SourceOver))]
  }

  /** Only the selected backend's blend state changes: everything else on
      both backends, including everything drawn so far, stays as it was. */
  lemma BlendModeChangesOnlySelected(ctx: Context, additive: bool, hint: BackendHint, b: Backends)
    ensures var after := Run(b, SetBlendMode(ctx, additive, hint));
      if UsesWebGL(ctx, hint) then
        after == b.(gl := b.gl.(additive := additive))
      else
        after == b.(main := b.main.(state := b.main.state.(composite := if additive then Lighter else SourceOver)))
  {
    assert SetBlendMode(ctx, additive, hint)[1..] == [];
  }
}

=== FILE: geometry.dfy ===
/** Real-valued 2D vectors (the engine's Vector2) and the conversion of a
    JavaScript number to an integer that the draw layer performs with `|0`. */
module Geometry {

  /** A 2D point or extent; the engine's floats are modelled as exact reals. */
  datatype Vec2 = Vec2(x: real, y: real)

  /** `vec2(s)`: both components equal. */
  function Splat(s: real): Vec2 { Vec2(s, s) }

  function Add(a: Vec2, b: Vec2): Vec2 { Vec2(a.x + b.x, a.y + b.y) }

  function Sub(a: Vec2, b: Vec2): Vec2 { Vec2(a.x - b.x, a.y - b.y) }

  /** `v.scale(s)` */
  function Scale(v: Vec2, s: real): Vec2 { Vec2(v.x * s, v.y * s) }

  /** `a.multiply(b)`: component-wise product. */
  function Mul(a: Vec2, b: Vec2): Vec2 { Vec2(a.x * b.x, a.y * b.y) }

  function LengthSquared(v: Vec2): real { v.x * v.x + v.y * v.y }

  /** The point halfway between `a` and `b`. */
  function Midpoint(a: Vec2, b: Vec2): Vec2 { Vec2((a.x + b.x) / 2.0, (a.y + b.y) / 2.0) }

  /** The host's `Vector2.length()` and `Vector2.angle()`, which are not part of
      this model: they are supplied by the caller as plain functions. */
  datatype VectorMath = VectorMath(length: Vec2 -> real, angle: Vec2 -> real)

  /** The host's length of `v` is a genuine Euclidean length. */
  predicate IsLength(vm: VectorMath, v: Vec2)
  {
    vm.length(v) >= 0.0 && vm.length(v) * vm.length(v) == LengthSquared(v)
  }

  /** `r|0` for a number whose integer part fits in 32 bits: the fraction is
      dropped, rounding toward zero. */
  function Trunc(r: real): (n: int)
    ensures r >= 0.0 ==> n as real <= r < n as real + 1.0
    ensures r <= 0.0 ==> n as real - 1.0 < r <= n as real
  {
    if r >= 0.0 then r.Floor else -((-r).Floor)
  }

  lemma TruncOfInteger(n: int)
    ensures Trunc(n as real) == n
  {
  }

  /** For a non-negative quotient `a / b` of integers, `(a / b)|0` is the
      integer quotient. */
  lemma {:induction false} TruncOfQuotient(a: nat, b: int)
    requires b > 0
    ensures Trunc(a as real / b as real) == a / b
  {
    var q, r := a / b, a % b;
    var qr, rr, bb := q as real, r as real, b as real;
    assert a == q * b + r && 0 <= r < b;
    assert a as real == (q * b) as real + rr;
    assert (q * b) as real == qr * bb;
    var t := a as real / bb;
    assert t == qr + rr / bb;
    assert 0.0 <= rr / bb < 1.0;
  }
}

=== FILE: render.dfy ===
/** The render context: the engine globals the draw layer reads, gathered
    into one immutable record that every draw primitive receives. */
module Render {
  import opened Geometry

  /** An RGBA colour; its packing (`rgbaInt`) and CSS form (`rgba`) are
      left abstract, so commands carry the colour itself. */
  datatype Color = Color(r: real, g: real, b: real, a: real)

  /** `new Color`: opaque white, the default draw colour. */
  const White := Color(1.0, 1.0, 1.0, 1.0)

  /** `new Color(0,0,0,0)`: the default additive colour, adding nothing. */
  const Clear := Color(0.0, 0.0, 0.0, 0.0)

  /** A positive pixel count. */
  type Pixels = n: int | n > 0 witness 1

  /** Width and height in pixels: of one tile, or of the whole tile sheet. */
  datatype PixelSize = PixelSize(w: Pixels, h: Pixels)

  /** The engine state the draw layer reads.
      - cameraPos, cameraScale: the camera (world units, pixels per unit)
      - canvasSize: `mainCanvasSize`, in pixels
      - glEnable: whether the WebGL backend exists at all
      - imageLoaded: whether `tileImage.width` is non-zero
      - sheet: `tileImageSize`, the tile sheet in pixels
      - fixBleed: `tileImageFixBleed`, the UV inset of the WebGL path
      - fixBleedScale: `tileFixBleedScale`, the pixel inset of the Canvas2D path
      - tileSizeDefault: the tile size used when a caller gives none */
  datatype Context = Context(
    cameraPos: Vec2,
    cameraScale: real,
    canvasSize: Vec2,
    glEnable: bool,
    imageLoaded: bool,
    sheet: PixelSize,
    fixBleed: Vec2,
    fixBleedScale: real,
    tileSizeDefault: PixelSize)

  /** The optional `useWebGL` argument: `Default` when the caller leaves it
      undefined (the parameter then defaults to `glEnable`), otherwise the
      truthiness of what the caller passed. */
  datatype BackendHint = Default | UseWebGL(on: bool)

  /** The truthiness of `useWebGL` once its default has been applied. */
  predicate HintOn(ctx: Context, hint: BackendHint)
  {
    match hint
    case Default => ctx.glEnable
    case UseWebGL(on) => on
  }

  /** `glEnable && useWebGL`: the test both `drawTile` and `setBlendMode`
      use to pick the WebGL backend. */
  predicate UsesWebGL(ctx: Context, hint: BackendHint)
  {
    ctx.glEnable && HintOn(ctx, hint)
  }

  /** Leaving `useWebGL` out selects WebGL exactly when it is enabled, and
      an explicit falsy value never selects it. */
  lemma BackendSelection(ctx: Context, hint: BackendHint)
    ensures UsesWebGL(ctx, Default) <==> ctx.glEnable
    ensures !UsesWebGL(ctx, UseWebGL(false))
    ensures UsesWebGL(ctx, hint) ==> ctx.glEnable
  {
  }
}

=== FILE: tilesheet.dfy ===
/** Tile-sheet arithmetic: the sheet is a row-major grid of equal tiles
    numbered from 0, and both backends locate tile `index` the same way. */
module TileSheet {
  import opened Geometry
  import opened Render

  /** `tileImageSize.x / tileSize.x |0`: how many whole tiles fit across the
      sheet.  Zero when the tile is wider than the sheet. */
  function Columns(sheet: PixelSize, tile: PixelSize): (cols: nat)
    ensures cols * tile.w <= sheet.w < (cols + 1) * tile.w
  {
    TruncOfQuotient(sheet.w, tile.w);
    Trunc(sheet.w as real / tile.w as real)
  }

  /** How many whole tiles fit down the sheet.  The draw code never computes
      this; it is used to state when a tile index lies on the sheet. */
  function Rows(sheet: PixelSize, tile: PixelSize): (rows: nat)
    ensures rows * tile.h <= sheet.h < (rows + 1) * tile.h
  {
    sheet.h / tile.h
  }

  /** A tile column; `NaNColumn` is what `index % 0` yields in JavaScript. */
  datatype Column = Col(c: nat) | NaNColumn

  datatype Cell = Cell(column: Column, row: nat)

  /** Column `index % cols` and row `index / cols |0` of tile `index`.  With no
      whole column the remainder is NaN, while the row, an infinite or NaN
      quotient truncated by `|0`, is 0. */
  function TileCell(index: nat, cols: nat): (cell: Cell)
    ensures cols == 0 <==> cell.column == NaNColumn
    ensures cols == 0 ==> cell.row == 0
    ensures cols > 0 ==> cell.column.Col? && cell.column.c < cols
    ensures cols > 0 ==> index == cell.row * cols + cell.column.c
  {
    if cols == 0 then Cell(NaNColumn, 0)
    else
      TruncOfQuotient(index, cols);
      Cell(Col(index % cols), Trunc(index as real / cols as real))
  }

  /** Row-major numbering is a bijection: any (column, row) pair with the
      column inside the grid is the cell of exactly one index. */
  lemma {:induction false} CellUnique(index: nat, cols: nat, c: nat, r: nat)
    requires 0 <= c < cols
    ensures index == r * cols + c <==> TileCell(index, cols) == Cell(Col(c), r)
  {
    if index == r * cols + c {
      DivisionUnique(index, cols, c, r);
    }
  }

  /** The quotient and remainder of a division are the only row and column
      that rebuild the index. */
  lemma {:induction false} DivisionUnique(index: nat, cols: nat, c: nat, r: nat)
    requires 0 <= c < cols && index == r * cols + c
    ensures r == index / cols && c == index % cols
  {
    var q, m := index / cols, index % cols;
    assert index == q * cols + m && 0 <= m < cols;
    assert (q + 1) * cols == q * cols + cols;
    assert (r + 1) * cols == r * cols + cols;
    MulLe(q + 1, r, cols);
    MulLe(r + 1, q, cols);
  }

  /** Multiplying by a natural number keeps order. */
  lemma MulLe(a: nat, b: nat, k: nat)
    ensures a <= b ==> a * k <= b * k
  {
    if a <= b {
      assert b * k == a * k + (b - a) * k;
    }
  }

  /** A JavaScript number that may be NaN. */
  datatype Coord = Num(v: real) | NaN

  /** The UV rectangle passed to `glDraw`: corners (u0, v0) and (u1, v1). */
  datatype UvRect = UvRect(u0: Coord, v0: real, u1: Coord, v1: real)

  /** The all-zero UVs of an untextured WebGL quad. */
  const ZeroUv := UvRect(Num(0.0), 0.0, Num(0.0), 0.0)

  /** (uvSizeX, uvSizeY): one tile as a fraction of the sheet. */
  function UvSize(sheet: PixelSize, tile: PixelSize): Vec2
  {
    Vec2(tile.w as real / sheet.w as real, tile.h as real / sheet.h as real)
  }

  /** The WebGL UVs of tile `index`: its cell in UV units, inset by `bleed`
      on every side. */
  function TileUv(sheet: PixelSize, bleed: Vec2, tile: PixelSize, index: nat): (uv: UvRect)
    ensures Columns(sheet, tile) == 0 <==> uv.u0 == NaN && uv.u1 == NaN
    ensures uv.u0.Num? <==> uv.u1.Num?
    ensures uv.u0.Num? ==> uv.u1.v - uv.u0.v == UvSize(sheet, tile).x - 2.0 * bleed.x
    ensures uv.v1 - uv.v0 == UvSize(sheet, tile).y - 2.0 * bleed.y
  {
    var size := UvSize(sheet, tile);
    var cell := TileCell(index, Columns(sheet, tile));
    var uvY := cell.row as real * size.y;
    match cell.column
    case NaNColumn =>
      UvRect(NaN, uvY + bleed.y, NaN, uvY - bleed.y + size.y)
    case Col(c) =>
      var uvX := c as real * size.x;
      UvRect(Num(uvX + bleed.x), uvY + bleed.y, Num(uvX - bleed.x + size.x), uvY - bleed.y + size.y)
  }

  /** The Canvas2D source rectangle `(sX, sY, sWidth, sHeight)` in sheet pixels. */
  datatype SourceRect = SourceRect(x: Coord, y: real, w: real, h: real)

  /** The Canvas2D source rectangle of tile `index`: its cell in pixels, inset
      by `bleedScale` on every side. */
  function TileSource(sheet: PixelSize, bleedScale: real, tile: PixelSize, index: nat): (src: SourceRect)
    ensures Columns(sheet, tile) == 0 <==> src.x == NaN
    ensures src.w == tile.w as real - 2.0 * bleedScale
    ensures src.h == tile.h as real - 2.0 * bleedScale
  {
    var cell := TileCell(index, Columns(sheet, tile));
    var sY := cell.row as real * tile.h as real + bleedScale;
    match cell.column
    case NaNColumn =>
      SourceRect(NaN, sY, tile.w as real - 2.0 * bleedScale, tile.h as real - 2.0 * bleedScale)
    case Col(c) =>
      SourceRect(Num(c as real * tile.w as real + bleedScale), sY,
                 tile.w as real - 2.0 * bleedScale, tile.h as real - 2.0 * bleedScale)
  }

  /** Scaling an integer bound into UV units: `n * t <= w` gives `n * (t / w) <= 1`. */
  lemma FractionAtMostOne(n: nat, t: Pixels, w: Pixels)
    ensures n * t <= w <==> n as real * (t as real / w as real) <= 1.0
  {
    var f := t as real / w as real;
    assert n as real * f == (n * t) as real / w as real;
  }

  /** A cell `[k*f, (k+1)*f]` ending by 1, inset by at most half its width,
      stays in [0, 1]. */
  lemma InsetSpanInUnit(k: nat, f: real, b: real)
    requires f > 0.0 && 0.0 <= b <= f / 2.0
    requires (k + 1) as real * f <= 1.0
    ensures 0.0 <= k as real * f + b <= k as real * f - b + f <= 1.0
  {
    assert (k + 1) as real * f == k as real * f + f;
    assert 0.0 <= k as real * f;
  }

  /** Against floor bounds `n*t <= w < (n+1)*t`, cell `k` ends by `w`
      exactly when `k < n`. */
  lemma FitIff(k: nat, n: nat, t: Pixels, w: int)
    requires n * t <= w < (n + 1) * t
    ensures (k + 1) * t <= w <==> k < n
  {
    MulLe(k + 1, n, t);
    MulLe(n + 1, k + 1, t);
  }

  /** An index `row*cols + c` with `c < cols` lies below `cols*rows` exactly
      when its row lies below `rows`. */
  lemma RowBelowIff(index: nat, cols: nat, row: nat, c: nat, rows: nat)
    requires c < cols && index == row * cols + c
    ensures index < cols * rows <==> row < rows
  {
    MulLe(row + 1, rows, cols);
    MulLe(rows, row, cols);
    assert (row + 1) * cols == row * cols + cols;
  }

  /** With an inset between 0 and half a tile, the horizontal UVs of any
      tile lie in [0, 1], since the column is always below `cols`. */
  lemma {:induction false} UvColumnInUnitInterval(sheet: PixelSize, bleed: Vec2, tile: PixelSize, index: nat)
    requires Columns(sheet, tile) > 0
    requires 0.0 <= bleed.x <= UvSize(sheet, tile).x / 2.0
    ensures var uv := TileUv(sheet, bleed, tile, index);
      0.0 <= uv.u0.v <= uv.u1.v <= 1.0
  {
    var cols := Columns(sheet, tile);
    var c := TileCell(index, cols).column.c;
    var f := UvSize(sheet, tile).x;
    MulLe(c + 1, cols, tile.w);
    FractionAtMostOne(c + 1, tile.w, sheet.w);
    InsetSpanInUnit(c, f, bleed.x);
    var uv := TileUv(sheet, bleed, tile, index);
    assert uv.u0 == Num(c as real * f + bleed.x) && uv.u1 == Num(c as real * f - bleed.x + f);
  }

  /** The vertical UV cell of a tile lies in [0, 1] exactly when the index is
      on the sheet.  The draw code does not check this, so an index past the
      last row samples outside the sheet. */
  lemma {:induction false} UvRowInUnitIntervalIff(sheet: PixelSize, bleed: Vec2, tile: PixelSize, index: nat)
    requires Columns(sheet, tile) > 0
    ensures var uv := TileUv(sheet, bleed, tile, index);
      uv.v1 + bleed.y <= 1.0 <==> index < Columns(sheet, tile) * Rows(sheet, tile)
    ensures 0.0 <= TileUv(sheet, bleed, tile, index).v0 - bleed.y
  {
    var cols := Columns(sheet, tile);
    var cell := TileCell(index, cols);
    UvRowSpan(sheet, bleed, tile, index);
    RowEndsInSheetIff(cell.row, sheet, tile);
    RowBelowIff(index, cols, cell.row, cell.column.c, Rows(sheet, tile));
  }

  lemma UvRowSpan(sheet: PixelSize, bleed: Vec2, tile: PixelSize, index: nat)
    ensures var uv := TileUv(sheet, bleed, tile, index);
      var y := TileCell(index, Columns(sheet, tile)).row as real * UvSize(sheet, tile).y;
      && 0.0 <= y
      && uv.v0 == y + bleed.y
      && uv.v1 == y - bleed.y + UvSize(sheet, tile).y
  {
  }

  /** Row `row`'s cell ends inside the unit interval exactly when the row is
      one of the sheet's whole rows. */
  lemma RowEndsInSheetIff(row: nat, sheet: PixelSize, tile: PixelSize)
    ensures var f := UvSize(sheet, tile).y;
      row as real * f + f <= 1.0 <==> row < Rows(sheet, tile)
  {
    var f := UvSize(sheet, tile).y;
    assert (row + 1) as real * f == row as real * f + f;
    FractionAtMostOne(row + 1, tile.h, sheet.h);
    FitIff(row, Rows(sheet, tile), tile.h, sheet.h);
  }

  /** An index on the sheet, with insets between 0 and half a tile, gets a
      UV rectangle inside the unit square. */
  lemma UvInUnitSquare(sheet: PixelSize, bleed: Vec2, tile: PixelSize, index: nat)
    requires Columns(sheet, tile) > 0
    requires index < Columns(sheet, tile) * Rows(sheet, tile)
    requires 0.0 <= bleed.x <= UvSize(sheet, tile).x / 2.0
    requires 0.0 <= bleed.y <= UvSize(sheet, tile).y / 2.0
    ensures var uv := TileUv(sheet, bleed, tile, index);
      && 0.0 <= uv.u0.v <= uv.u1.v <= 1.0
      && 0.0 <= uv.v0 <= uv.v1 <= 1.0
  {
    UvColumnInUnitInterval(sheet, bleed, tile, index);
    UvRowInUnitIntervalIff(sheet, bleed, tile, index);
  }

  /** A concrete index past the last row: a 16x16 sheet of 8x8 tiles has
      four tiles, and tile 4 gets v coordinates beyond 1. */
  lemma OffSheetIndexLeavesUnitSquare()
    ensures var sheet, tile := PixelSize(16, 16), PixelSize(8, 8);
      && Columns(sheet, tile) * Rows(sheet, tile) == 4
      && TileUv(sheet, Vec2(0.0, 0.0), tile, 4).v1 > 1.0
  {
    var sheet, tile := PixelSize(16, 16), PixelSize(8, 8);
    assert Columns(sheet, tile) == 2;
    assert TileCell(4, 2) == Cell(Col(0), 2) by {
      CellUnique(4, 2, 0, 2);
    }
  }

  /** With an inset strictly between 0 and half a tile, the Canvas2D source
      rectangle lies strictly inside the tile's own cell, so filtering never
      reaches a neighbouring tile. */
  lemma SourceInsideCell(sheet: PixelSize, bleedScale: real, tile: PixelSize, index: nat)
    requires Columns(sheet, tile) > 0
    requires 0.0 < bleedScale
    requires 2.0 * bleedScale < tile.w as real && 2.0 * bleedScale < tile.h as real
    ensures var src := TileSource(sheet, bleedScale, tile, index);
      var cell := TileCell(index, Columns(sheet, tile));
      && cell.column.c as real * tile.w as real < src.x.v
      && src.x.v + src.w < (cell.column.c + 1) as real * tile.w as real
      && cell.row as real * tile.h as real < src.y
      && src.y + src.h < (cell.row + 1) as real * tile.h as real
  {
    var cell := TileCell(index, Columns(sheet, tile));
    SourceCorner(sheet, bleedScale, tile, index);
    var c, row := cell.column.c as real, cell.row as real;
    assert (cell.column.c + 1) as real * tile.w as real == c * tile.w as real + tile.w as real;
    assert (cell.row + 1) as real * tile.h as real == row * tile.h as real + tile.h as real;
  }

  /** Both backends pick the same cell: with the insets removed, the WebGL UV
      corner is the Canvas2D source corner divided by the sheet size. */
  lemma BackendsAgreeOnCell(sheet: PixelSize, bleed: Vec2, bleedScale: real, tile: PixelSize, index: nat)
    requires Columns(sheet, tile) > 0
    ensures var uv := TileUv(sheet, bleed, tile, index);
      var src := TileSource(sheet, bleedScale, tile, index);
      && uv.u0.v - bleed.x == (src.x.v - bleedScale) / sheet.w as real
      && uv.v0 - bleed.y == (src.y - bleedScale) / sheet.h as real
  {
    var cell := TileCell(index, Columns(sheet, tile));
    UvCorner(sheet, bleed, tile, index);
    SourceCorner(sheet, bleedScale, tile, index);
    ScaleFraction(cell.column.c as real, tile.w as real, sheet.w as real);
    ScaleFraction(cell.row as real, tile.h as real, sheet.h as real);
  }

  lemma UvCorner(sheet: PixelSize, bleed: Vec2, tile: PixelSize, index: nat)
    requires Columns(sheet, tile) > 0
    ensures var cell := TileCell(index, Columns(sheet, tile));
      var uv := TileUv(sheet, bleed, tile, index);
      && cell.column.Col?
      && uv.u0 == Num(cell.column.c as real * UvSize(sheet, tile).x + bleed.x)
      && uv.v0 == cell.row as real * UvSize(sheet, tile).y + bleed.y
  {
  }

  lemma SourceCorner(sheet: PixelSize, bleedScale: real, tile: PixelSize, index: nat)
    requires Columns(sheet, tile) > 0
    ensures var cell := TileCell(index, Columns(sheet, tile));
      var src := TileSource(sheet, bleedScale, tile, index);
      && cell.column.Col?
      && src.x == Num(cell.column.c as real * tile.w as real + bleedScale)
      && src.y == cell.row as real * tile.h as real + bleedScale
  {
  }

  lemma ScaleFraction(k: real, t: real, w: real)
    requires w != 0.0
    ensures k * (t / w) == k * t / w
  {
  }
}

=== FILE: transform.dfy ===
/** World space (camera-centred, Y up, one unit per tile) and screen space
    (pixels, Y down, origin top-left, sampled at pixel centres). */
module Transform {
  import opened Geometry
  import opened Render

  /** `worldToScreen`: offset from the camera, scaled by (s, -s), moved to
      the canvas centre and shifted half a pixel up-left. */
  function WorldToScreen(ctx: Context, w: Vec2): (p: Vec2)
    ensures w == ctx.cameraPos ==> p == Sub(Scale(ctx.canvasSize, 0.5), Splat(0.5))
  {
    Sub(Add(Mul(Sub(w, ctx.cameraPos), Vec2(ctx.cameraScale, -ctx.cameraScale)),
            Scale(ctx.canvasSize, 0.5)),
        Splat(0.5))
  }

  /** `screenToWorld`: undoes the half-pixel shift, re-centres on the canvas,
      divides by (s, -s) and adds the camera position.  With a zero camera
      scale the source divides by zero; that case is not modelled. */
  function ScreenToWorld(ctx: Context, p: Vec2): (w: Vec2)
    requires ctx.cameraScale != 0.0
    ensures WorldToScreen(ctx, w) == p
  {
    Add(Mul(Sub(Add(p, Splat(0.5)), Scale(ctx.canvasSize, 0.5)),
            Vec2(1.0 / ctx.cameraScale, -1.0 / ctx.cameraScale)),
        ctx.cameraPos)
  }

  /** The other round trip: a world point survives screen space unchanged. */
  lemma WorldScreenWorld(ctx: Context, w: Vec2)
    requires ctx.cameraScale != 0.0
    ensures ScreenToWorld(ctx, WorldToScreen(ctx, w)) == w
  {
  }

  /** Screen-space offsets are world-space offsets scaled by (s, -s): the
      half-pixel shift cancels between any two points. */
  lemma ScreenOffset(ctx: Context, a: Vec2, b: Vec2)
    ensures Sub(WorldToScreen(ctx, b), WorldToScreen(ctx, a))
         == Mul(Sub(b, a), Vec2(ctx.cameraScale, -ctx.cameraScale))
  {
  }

  /** With a positive scale, x keeps its order and y is flipped. */
  lemma AxesOrientation(ctx: Context, a: Vec2, b: Vec2)
    requires ctx.cameraScale > 0.0
    ensures a.x < b.x <==> WorldToScreen(ctx, a).x < WorldToScreen(ctx, b).x
    ensures a.y < b.y <==> WorldToScreen(ctx, a).y > WorldToScreen(ctx, b).y
  {
    ScreenOffset(ctx, a, b);
  }
}
